=== FILE: README.md ===
# darwinian_blobs in Dafny

A model of the blob ecosystem: blobs, each with a colour, play
rock-paper-scissors against each other, day after day, each through a
strategy. There are four strategies: random, dominant, mirror and tabular
reinforcement learning (RL). The winner of a round reproduces while the
population is below its cap. Every round is logged.

The model has five files.

- `moves.dfy` (module `Moves`): the three moves and the win
  list, with `Beats` and the mirror's `Counter` move. It also holds the
  reason strings a strategy gives, a history `Entry`, and `Roll`, the
  explicit random numbers one decision consumes.
- `strategy.dfy` (modules `Options`, `Strategies`): the strategy variants as
  one closed datatype, plus the registry that maps names to strategies. A
  registry lookup gives an `Option`, `None` where Python raises `KeyError`. `Choose`
  returns the strategy's next state next to the move, because the mirror
  strategy remembers what it saw. `UpdateIfSupported` updates the RL
  strategy's value table and leaves every other strategy alone.
- `ids.dfy` (module `Ids`): blob ids. An id is the colour followed by the
  colour's counter, zero-padded to two digits, plus a decimal reader that
  makes the id format invertible.
- `blob.dfy` (module `Blobs`): blob construction through the registry,
  `choose`, and `reproduce`. The source keeps one process-wide counter per
  colour; here that is an explicit `map<Color, nat>` passed in and handed
  back.
- `blob_world.dfy` (module `BlobWorld`): `play_round` and the simulation.
  `play_round` is modelled on two distinct positions of the population.
  The simulation is `PlayDay`, which pairs the start-of-day population as
  (0, 1), (2, 3), …, and `Simulate`, which runs the configured number of
  days.

The RL strategy's values and the draws of `random.random()` are `real`s.
A `random.choice` over a list of length n takes the element at
`pick % n`, where `pick` is supplied from outside.

In a round the second blob decides after the first one, and it is handed
the first blob's history with this round's move already appended. So a
mirror strategy in second position counts its opponent's current move. A
mirror in first position sees only its opponent's previous moves. The
model keeps this order, and `MirrorSecondSeesFirst` and
`MirrorFirstSeesPrevious` state it.

The code has no loss counters, no elimination, no colour check in pairing
and no early termination. Blobs are never removed, pairing is purely by
position, and a simulation always runs all of its days.

The cap of 100 blobs is only tested before an offspring is appended. A
population built larger than the cap never grows, and it never shrinks
either. So the bound the model keeps is the larger of the cap and the
starting size (`Ceiling`).

## Model

| member | source | states |
|---|---|---|
| Moves.Beats | blobWorld.py:19 | a beats b exactly when a comes right after b in the cyclic order rock, paper, scissors |
| Moves.Counter | strategy.py:43-48 | the mirror's answer to a move is exactly the one move that beats it under the win list |
| Moves.BeatsIsStrictCycle | blobWorld.py:19 | the win list is a strict 3-cycle: no move beats itself, of two distinct moves exactly one beats the other, and dominance is not transitive |
| Moves.PickFrom | strategy.py:12 | the model of `random.choice` always returns an element of the list |
| Moves.PickReachesEvery | strategy.py:12 | the model of `random.choice` can return every element of the list |
| Strategies.Lookup | strategy.py:69-74 | a lookup succeeds exactly for the four registry names: a found key's name is the name looked up, and every name of a key finds that key |
| Strategies.UnregisteredNamesFail | strategy.py:69-74 | "mlp" and "lstm", which the configuration lists, are not in the registry, so constructing a blob with them fails |
| Strategies.Fresh | blob.py:14-15 | a strategy built from the registry is of the key's kind: dominant favours rock with bias 0.6, a mirror has an empty window for every colour, and the RL table is all zeros |
| Strategies.ChooseRandom | strategy.py:10-12 | the random strategy keeps no state and always gives the reason "random" |
| Strategies.RandomReachesEveryMove | strategy.py:11-12 | every move is the random strategy's answer to some roll |
| Strategies.Others | strategy.py:22 | the alternatives to the favourite move are the other two moves in source order; with the favourite they make up all three moves |
| Strategies.ChooseDominant | strategy.py:19-23 | a coin below the bias gives the favourite move with "biased"; otherwise a different move with "random"; the state never changes |
| Strategies.DominantReachesOthers | strategy.py:22-23 | off the biased branch, each of the two other moves is reachable with one of the two picks |
| Strategies.Observe | strategy.py:27 | a bounded window: it ends with the new move, holds at most four moves, and drops the oldest move when full |
| Strategies.WindowKeepsLastFour | strategy.py:27-31 | starting from an empty window, any run of observations leaves exactly the last four observations (or all, if fewer), in order |
| Strategies.FirstMax | strategy.py:39 | `max` with a key over rock, paper, scissors: the result has maximal score, and every move listed before it scores strictly less |
| Strategies.TieMeansNoStrictMode | strategy.py:36-41 | the source's tie test holds exactly when no move is strictly most frequent, and a strictly most frequent move is the one `max` picks |
| Strategies.ChooseMirror | strategy.py:29-48 | the opponent colour's window gets the opponent's last move only when its history is non-empty, and other colours' windows are untouched; the reason is "insufficient history" below two observations, "mirror" exactly when some move is strictly most frequent, otherwise "tie in frequency"; a "mirror" move beats that most frequent move |
| Strategies.MirrorRandomReachesEveryMove | strategy.py:33-41 | with fewer than two observations, or with no strictly most frequent move, the mirror can answer with each of the three moves, as `random.choice` over all of them |
| Strategies.MirrorAnswersRepeatedMove | strategy.py:36-48 | a window of at least two observations, all of one move, is answered with the counter-move, with the reason "mirror" |
| Strategies.MirrorThreeRocks | strategy.py:29-48 | a fresh mirror facing a colour that plays rock three times answers paper by mirroring on the third encounter |
| Strategies.ChooseRL | strategy.py:56-62 | a coin below 0.2 explores; otherwise it exploits with a move of maximal value, where ties go to the move listed first |
| Strategies.ExploreReachesEveryMove | strategy.py:58-60 | a coin below 0.2 can explore with each of the three moves |
| Strategies.Learn | strategy.py:64-66 | only the chosen move's value changes, and its gap to the reward shrinks by the factor 1 - alpha (0.9) |
| Strategies.FirstRockWin | strategy.py:52-66 | from the zero table, one win with rock makes the rock value 0.1 and leaves the others at 0 |
| Strategies.LearnStaysInUnitRange | strategy.py:64-66 | rewards in {-1, 0, 1} keep every value within [-1, 1] |
| Strategies.Choose | blob.py:20-21 | each kind answers with its own chooser: a random strategy as `ChooseRandom`, a dominant one as `ChooseDominant` with its move and bias, a mirror as `ChooseMirror` on its windows and the opponent's colour and history, a tabular one as `ChooseRL` on its table; so the kind is kept, only the mirror changes state, and bounded windows and in-range values stay so |
| Strategies.UpdateIfSupported | blobWorld.py:30-33 | an RL strategy becomes its table after `Learn` with the chosen move and the reward, which changes only the chosen move's value; every other strategy is left unchanged |
| Strategies.UpdateKeepsHealthy | blobWorld.py:30-33 | updating with a round's reward keeps a strategy's state within its bounds |
| Ids.Pad2 | blob.py:17 | the `02d` numeral is all digits and has at least two of them, exactly two below 100; it starts with '0' exactly when n is below 10 |
| Ids.DecimalRoundTrip | blob.py:17 | reading back the decimal numeral of n gives n |
| Ids.Pad2RoundTrip | blob.py:17 | reading back the zero-padded (`02d`) numeral of n gives n |
| Ids.MintId | blob.py:17 | an id starts with the colour, has at least two more characters, and the rest reads back as the counter |
| Ids.MintIdInjective | blob.py:17-18 | within one colour, different counter values give different ids |
| Ids.IdsCanCollideAcrossColours | blob.py:17 | across colours ids can coincide: colour "red1" with counter 1 and colour "red" with counter 101 give the same id |
| Blobs.NewBlob | blob.py:11-18 | construction fails exactly for names outside the registry, and then changes no counter; otherwise the blob has the colour, the key of that name, a fresh strategy, an empty history and the id minted from the colour's counter, which goes up by one while other colours' counters stay |
| Blobs.SuccessiveIdsDiffer | blob.py:17-18 | two constructions in a row of one colour never give the same id |
| Blobs.Choose | blob.py:20-24 | a decision keeps the blob's identity, appends exactly one entry to the history, the strategy's move with the strategy's reason, returns that move, takes the strategy's next state, and keeps the blob consistent with its key |
| Blobs.Reproduce | blob.py:26-27 | an offspring has the parent's colour and key, a fresh strategy that does not copy learned state, no history, and the next id of its colour |
| Blobs.ReproduceIsMinted | blob.py:26-27 | an offspring's id is minted from the counter value its colour had, and the counters afterwards cover it |
| Blobs.Populate | blob.py:11-18 | building blobs from (colour, name) pairs succeeds exactly when every name is registered, and gives one blob per pair with that colour and name and no history |
| Blobs.PopulateSerials | blob.py:8-18 | building in sequence only raises counters, and every id comes from a counter value between the starting and the final counters |
| Blobs.PopulateIsOk | blob.py:8-18 | a population built in sequence is consistent, minted from the counters, and has distinct ids within each colour |
| Blobs.GrowthKeepsOk | blob.py:17-18 | keeping identities, raising counters and appending one newborn minted from the current counter keeps ids minted and distinct within each colour |
| BlobWorld.Resolve | blobWorld.py:16-25 | a draw exactly when the moves are equal, a win exactly when the first move beats the second, a loss exactly when the second beats the first |
| BlobWorld.RewardsOf | blobWorld.py:16-26 | rewards sum to zero: 0 on a draw, +1 to the winner and -1 to the loser |
| BlobWorld.NewWorld | blobWorld.py:8-11 | a new world holds the given blobs, starts on day 0, and has an empty log |
| BlobWorld.Offspring | blobWorld.py:20-28 | nothing changes on a draw or at the cap; otherwise the winner's offspring is appended and the counters advance with it |
| BlobWorld.PlayRound | blobWorld.py:13-35 | a round adds at most one blob, never takes the population past the larger of the cap and its size before, and logs exactly one record |
| BlobWorld.RoundRecord | blobWorld.py:13-35 | the record holds the day, both blobs' identities and both moves, and the outcome those moves give; the population grows exactly when the round is decisive and below the cap |
| BlobWorld.RoundChoices | blobWorld.py:14-35 | blob i chooses as `Blobs.Choose` against j's colour and history, then blob j chooses against i's colour and i's history that already holds this round's entry; the logged choices are those two moves, the two histories are the ones those calls extend, and the two strategies are those calls' states updated with the round's rewards |
| BlobWorld.RoundMoves | blobWorld.py:14-15 | each of the two blobs makes exactly one move, the one logged for it; every other blob is unchanged, and an offspring has not moved |
| BlobWorld.OffspringKeepsOk | blobWorld.py:20-28 | reproduction keeps the population consistent, minted and distinct, and leaves existing blobs unchanged |
| BlobWorld.UpdatedKeepsOk | blobWorld.py:30-33 | replacing the two players with consistent blobs of the same identity keeps the population minted and distinct |
| BlobWorld.PopulatedWorldIsWellFormed | blobWorld.py:8-11 | a world built from blobs constructed in sequence is well formed: every blob consistent with its key, ids minted and distinct within each colour; with at most 100 blobs it starts within the cap |
| BlobWorld.RoundKeepsWellFormed | blobWorld.py:13-35 | a round keeps every blob consistent with its key, and ids minted and distinct within each colour |
| BlobWorld.RoundOffspring | blobWorld.py:20-28 | a round that grows the population was decisive; the newborn is the winner's offspring, with the same colour and key, a fresh strategy, no history, and the winner colour's next id |
| BlobWorld.RoundCounters | blobWorld.py:20-28 | after a round, the winner colour's id counter is one higher exactly when the round was decisive and below the cap; every other counter, and every counter after a draw or at the cap, is unchanged |
| BlobWorld.RoundLearning | blobWorld.py:30-33 | an RL blob learns from its own move and its own reward for the outcome; random and dominant blobs keep their state |
| BlobWorld.MirrorSecondSeesFirst | blobWorld.py:14-15 | a mirror in second position has already observed the first blob's move of this very round |
| BlobWorld.MirrorFirstSeesPrevious | blobWorld.py:14-15 | a mirror in first position observes only its opponent's previous move, and observes nothing against an opponent with no history |
| BlobWorld.RoundHasEffect | blobWorld.py:13-35 | the round between positions 2k and 2k+1 logs their pairing and moves each of them once, and nobody else |
| BlobWorld.PlayPair | blobWorld.py:41-43 | the step is exactly `play_round` of the blobs at positions i and j (`PlayRound`); it keeps the world well formed, logs one record of the pair's identities, moves and outcome, moves each of the two once, and changes nobody else |
| BlobWorld.PlayDayRound | blobWorld.py:41-43 | round k of a day plays positions 2k and 2k + 1, keeps the day's invariant (well formed, records of the earlier pairs kept, this pair logged and moved once, population bound) and advances along `DayFrom` by exactly one round |
| BlobWorld.PlayDay | blobWorld.py:38-43 | the day's result is `DayFrom`, the fold of `play_round` over the pairs (2k, 2k + 1) of the start-of-day population with the rolls `dice(d, k)`; a day logs one record per pair (0, 1), (2, 3), … of the start-of-day population, in order; each paired blob moves exactly once; an odd last blob sits out; blobs born that day do not play; the world stays well formed and within the larger of the cap and its start-of-day size |
| BlobWorld.Simulate | blobWorld.py:37-43 | the result is `Days`, day after day of `DayFrom` over each day's start-of-day population, for 100 days; the simulation ends on day 99; the world stays well formed, within the larger of the cap and its starting size, and histories only grow; each day logs at least half the initial population's size in records; logged days are below 100 and never decrease |

## Left out

- The CSV logger is not modelled. Its file output is replaced by the in-memory `log` of `Record`s, one per `log` call.
- The `print` calls are left out (`blob.py` line 22 and the entry point). They are output only.
- Python's `random` module is not modelled. Each decision takes a `Roll` (a coin for `random.random()` and a pick for `random.choice`), and a simulation takes `Dice`, a function from (day, pair index) to the rolls of that round.
- Floating point is modelled as exact `real`. Rounding of 0.1, 0.2 and the value updates is not modelled.
- The RL strategy's discount factor `gamma` is left out: it is never read.
- `StrategyBase`, the abstract base class, is left out: the strategy datatype is closed.
- The entry point `world.py` is not modelled. Its "mlp" and "lstm" names are not in the registry, so building such a blob fails (see `Strategies.UnregisteredNamesFail`).
- The default logger argument of the world's constructor is left out.
- BlobWorld.PlayRound: requires two distinct positions. A blob playing itself cannot arise from the pairing of distinct positions, and one object stored at two positions is not modelled.
- BlobWorld.Simulate: gives only a lower bound on the number of records as a closed formula. Offspring join later days, so the exact count depends on the rolls; it is fixed through `Days`.
- The process-wide id counters are passed explicitly as a `map`. A colour missing from the map counts as 0, like `defaultdict(int)`.

=== FILE: blob.dfy ===
/**
  A blob: an individual with an id, a colour, the registry key of its strategy,
  the strategy's state and the append-only history of its moves. The source's
  process-wide per-colour id counter is explicit state here, threaded through
  construction.
 */
module Blobs {
  import opened Options
  import opened Moves
  import opened Strategies
  import opened Ids

  /** How many ids each colour has handed out; a colour not yet seen has handed
      out none (Python's `defaultdict(int)`). */
  type Counters = map<Color, nat>

  function Issued(counters: Counters, c: Color): nat {
    if c in counters then counters[c] else 0
  }

  datatype Blob = Blob(id: string, color: Color, key: StrategyKey, strategy: Strategy, history: seq<Entry>)

  /** Result of a construction: the blob, or `None` where Python raises, and the
      counters afterwards. */
  datatype Minted = Minted(blob: Option<Blob>, counters: Counters)

  /** `Blob(color, strategy_name)`: registry lookup first, then the id. */
  function NewBlob(counters: Counters, color: Color, name: string): (r: Minted)
    ensures r.blob.None? <==> Lookup(name).None?
    ensures r.blob.None? ==> r.counters == counters
    ensures r.blob.Some? ==>
      && r.blob.value.color == color
      && Name(r.blob.value.key) == name
      && r.blob.value.strategy == Fresh(r.blob.value.key)
      && r.blob.value.history == []
      && r.blob.value.id == MintId(color, Issued(counters, color))
      && Issued(r.counters, color) == Issued(counters, color) + 1
    ensures forall c :: c != color ==> Issued(r.counters, c) == Issued(counters, c)
  {
    match Lookup(name)
    case None => Minted(None, counters)
    case Some(key) =>
      var n := Issued(counters, color);
      Minted(Some(Blob(MintId(color, n), color, key, Fresh(key), [])), counters[color := n + 1])
  }

  /** Two constructions of one colour in a row never share an id. */
  lemma SuccessiveIdsDiffer(counters: Counters, color: Color, name1: string, name2: string)
    requires Lookup(name1).Some?
    ensures var first := NewBlob(counters, color, name1);
            var second := NewBlob(first.counters, color, name2);
            second.blob.Some? ==> second.blob.value.id != first.blob.value.id
  {
    var first := NewBlob(counters, color, name1);
    var second := NewBlob(first.counters, color, name2);
    if second.blob.Some? && second.blob.value.id == first.blob.value.id {
      MintIdInjective(color, Issued(counters, color), Issued(first.counters, color));
    }
  }

  /** The state a blob keeps by construction: its strategy is of the kind its
      key names, and that strategy's state is healthy. */
  predicate Consistent(b: Blob) {
    KindOf(b.strategy) == b.key && Healthy(b.strategy)
  }

  /** A decision and the blob after it. */
  datatype Turn = Turn(blob: Blob, move: Move)

  /** `Blob.choose`: ask the strategy and append its answer to the history. */
  function Choose(b: Blob, opponentColor: Color, opponentHistory: seq<Entry>, roll: Roll): (t: Turn)
    ensures t.blob.id == b.id && t.blob.color == b.color && t.blob.key == b.key
    ensures |t.blob.history| == |b.history| + 1
    ensures t.blob.history[..|b.history|] == b.history
    ensures t.blob.history[|b.history|].move == t.move
    ensures t.blob.history[|b.history|]
         == Entry(t.move, Strategies.Choose(b.strategy, opponentColor, opponentHistory, roll).reason)
    ensures t.move == Strategies.Choose(b.strategy, opponentColor, opponentHistory, roll).move
    ensures t.blob.strategy == Strategies.Choose(b.strategy, opponentColor, opponentHistory, roll).next
    ensures Consistent(b) ==> Consistent(t.blob)
  {
    var ch := Strategies.Choose(b.strategy, opponentColor, opponentHistory, roll);
    Turn(b.(strategy := ch.next, history := b.history + [Entry(ch.move, ch.reason)]), ch.move)
  }

  /** `Blob.reproduce`: a new blob of the same colour and key, built through the
      registry like any other, so with a fresh strategy and no history. */
  function Reproduce(b: Blob, counters: Counters): (r: (Blob, Counters))
    ensures r.0.color == b.color && r.0.key == b.key
    ensures r.0.strategy == Fresh(b.key) && r.0.history == []
    ensures Consistent(r.0)
    ensures r.0.id == MintId(b.color, Issued(counters, b.color))
    ensures Issued(r.1, b.color) == Issued(counters, b.color) + 1
    ensures forall c :: c != b.color ==> Issued(r.1, c) == Issued(counters, c)
  {
    var m := NewBlob(counters, b.color, Name(b.key));
    FreshIsHealthy(b.key);
    (m.blob.value, m.counters)
  }

  // ----------------------------------------------------------- population

  /** The counter value an id was minted from. */
  function Serial(b: Blob): nat
    requires |b.color| <= |b.id|
  {
    ParseDecimal(b.id[|b.color|..])
  }

  /** `b`'s id was minted for its colour from a counter value already handed out. */
  predicate MintedBefore(b: Blob, counters: Counters) {
    && |b.color| <= |b.id|
    && b.id == MintId(b.color, Serial(b))
    && Serial(b) < Issued(counters, b.color)
  }

  /** Every blob is consistent and carries an id minted from the counters, and no
      two blobs of one colour share an id. */
  predicate PopulationOk(blobs: seq<Blob>, counters: Counters) {
    AllMinted(blobs, counters) && DistinctIds(blobs)
  }

  predicate AllMinted(blobs: seq<Blob>, counters: Counters) {
    forall x :: 0 <= x < |blobs| ==> Consistent(blobs[x]) && MintedBefore(blobs[x], counters)
  }

  predicate DistinctIds(blobs: seq<Blob>) {
    forall x, y :: 0 <= x < y < |blobs| && blobs[x].color == blobs[y].color ==> blobs[x].id != blobs[y].id
  }

  predicate AllRegistered(specs: seq<(Color, string)>) {
    forall x :: 0 <= x < |specs| ==> Lookup(specs[x].1).Some?
  }

  /** Construct blobs from (colour, strategy name) pairs in order, as an entry
      point does before handing them to the world; `None` as soon as a name is
      not in the registry. */
  function Populate(counters: Counters, specs: seq<(Color, string)>): (r: Option<(seq<Blob>, Counters)>)
    ensures r.Some? <==> AllRegistered(specs)
    ensures r.Some? ==> |r.value.0| == |specs|
    ensures r.Some? ==> forall x :: 0 <= x < |specs| ==>
      r.value.0[x].color == specs[x].0 && Name(r.value.0[x].key) == specs[x].1 && r.value.0[x].history == []
    decreases |specs|
  {
    if specs == [] then Some(([], counters))
    else
      var m := NewBlob(counters, specs[0].0, specs[0].1);
      if m.blob.None? then None
      else
        var rest := Populate(m.counters, specs[1..]);
        if rest.None? then
          assert !AllRegistered(specs[1..]);
          None
        else
          var blobs := [m.blob.value] + rest.value.0;
          assert AllRegistered(specs) by {
            forall x | 0 <= x < |specs| ensures Lookup(specs[x].1).Some? {
              if x > 0 {
                assert specs[x] == specs[1..][x - 1];
              }
            }
          }
          Some((blobs, rest.value.1))
  }

  /** A freshly constructed blob's id is minted from the counter value its
      construction handed out. */
  lemma NewBlobIsMinted(counters: Counters, color: Color, name: string)
    requires NewBlob(counters, color, name).blob.Some?
    ensures var m := NewBlob(counters, color, name);
      && MintedBefore(m.blob.value, m.counters)
      && Serial(m.blob.value) == Issued(counters, color)
      && Consistent(m.blob.value)
  {
    var m := NewBlob(counters, color, name);
    FreshIsHealthy(m.blob.value.key);
  }

  /** An offspring's id is minted from the counter value its parent's colour
      had, and the counters afterwards cover it. */
  lemma ReproduceIsMinted(b: Blob, counters: Counters)
    ensures var r := Reproduce(b, counters);
      MintedBefore(r.0, r.1) && Serial(r.0) == Issued(counters, b.color)
  {
  }

  /** Counters only grow, so an id minted before stays minted before. */
  lemma MintedBeforeLater(b: Blob, earlier: Counters, later: Counters)
    requires MintedBefore(b, earlier)
    requires Issued(earlier, b.color) <= Issued(later, b.color)
    ensures MintedBefore(b, later)
  {
  }

  /** Every blob is consistent, minted from `final`, and newer than `start`. */
  predicate MintedBetween(blobs: seq<Blob>, start: Counters, final: Counters) {
    forall x :: 0 <= x < |blobs| ==>
      && Consistent(blobs[x])
      && MintedBefore(blobs[x], final)
      && Issued(start, blobs[x].color) <= Serial(blobs[x])
  }

  /** Construction in sequence yields ids minted from the final counters, each
      newer than the starting counters. */
  lemma {:induction false} PopulateSerials(counters: Counters, specs: seq<(Color, string)>)
    requires Populate(counters, specs).Some?
    ensures var r := Populate(counters, specs).value;
      && (forall c :: Issued(counters, c) <= Issued(r.1, c))
      && MintedBetween(r.0, counters, r.1)
    decreases |specs|
  {
    if specs != [] {
      var m := NewBlob(counters, specs[0].0, specs[0].1);
      var b := m.blob.value;
      NewBlobIsMinted(counters, specs[0].0, specs[0].1);
      PopulateSerials(m.counters, specs[1..]);
      var rest := Populate(m.counters, specs[1..]).value;
      var r := Populate(counters, specs).value;
      assert r.0 == [b] + rest.0 && r.1 == rest.1;
      MintedBeforeLater(b, m.counters, r.1);
      MintedBetweenCons(b, rest.0, counters, m.counters, r.1);
    }
  }

  lemma MintedBetweenCons(b: Blob, rest: seq<Blob>, start: Counters, mid: Counters, final: Counters)
    requires Consistent(b) && MintedBefore(b, final) && Issued(start, b.color) <= Serial(b)
    requires forall c :: Issued(start, c) <= Issued(mid, c)
    requires MintedBetween(rest, mid, final)
    ensures MintedBetween([b] + rest, start, final)
  {
    var blobs := [b] + rest;
    forall x | 0 <= x < |blobs|
      ensures Consistent(blobs[x]) && MintedBefore(blobs[x], final)
      ensures Issued(start, blobs[x].color) <= Serial(blobs[x])
    {
      if x > 0 {
        assert blobs[x] == rest[x - 1];
      }
    }
  }

  /** Construction in sequence yields a population with distinct ids per colour. */
  lemma {:induction false} PopulateIsOk(counters: Counters, specs: seq<(Color, string)>)
    requires Populate(counters, specs).Some?
    ensures PopulationOk(Populate(counters, specs).value.0, Populate(counters, specs).value.1)
    decreases |specs|
  {
    PopulateSerials(counters, specs);
    if specs != [] {
      var m := NewBlob(counters, specs[0].0, specs[0].1);
      var b := m.blob.value;
      NewBlobIsMinted(counters, specs[0].0, specs[0].1);
      PopulateIsOk(m.counters, specs[1..]);
      PopulateSerials(m.counters, specs[1..]);
      var rest := Populate(m.counters, specs[1..]).value.0;
      var blobs := Populate(counters, specs).value.0;
      assert blobs == [b] + rest;
      assert DistinctIds(rest);
      forall y | 0 <= y < |rest| && rest[y].color == b.color
        ensures rest[y].id != b.id
      {
        assert Issued(m.counters, b.color) <= Serial(rest[y]);
      }
      DistinctIdsCons(b, rest);
    }
  }

  lemma DistinctIdsCons(b: Blob, rest: seq<Blob>)
    requires DistinctIds(rest)
    requires forall y :: 0 <= y < |rest| && rest[y].color == b.color ==> rest[y].id != b.id
    ensures DistinctIds([b] + rest)
  {
    var blobs := [b] + rest;
    forall x, y | 0 <= x < y < |blobs| && blobs[x].color == blobs[y].color
      ensures blobs[x].id != blobs[y].id
    {
      assert blobs[y] == rest[y - 1];
      if x > 0 {
        assert blobs[x] == rest[x - 1];
      }
    }
  }

  /** One step of the population that keeps every blob's identity, advances
      counters only, and appends at most one newborn minted from the counter
      value it found, keeps ids minted and distinct within each colour. */
  lemma GrowthKeepsOk(before: seq<Blob>, bc: Counters, after: seq<Blob>, ac: Counters)
    requires PopulationOk(before, bc)
    requires |before| <= |after| <= |before| + 1
    requires forall x :: 0 <= x < |before| ==>
      after[x].id == before[x].id && after[x].color == before[x].color && Consistent(after[x])
    requires forall c :: Issued(bc, c) <= Issued(ac, c)
    requires |after| > |before| ==>
      var child := after[|before|];
      && Consistent(child) && MintedBefore(child, ac) && Serial(child) == Issued(bc, child.color)
    ensures PopulationOk(after, ac)
  {
    GrowthKeepsMinted(before, bc, after, ac);
    GrowthKeepsDistinct(before, bc, after);
  }

  lemma GrowthKeepsMinted(before: seq<Blob>, bc: Counters, after: seq<Blob>, ac: Counters)
    requires AllMinted(before, bc)
    requires |before| <= |after| <= |before| + 1
    requires forall x :: 0 <= x < |before| ==>
      after[x].id == before[x].id && after[x].color == before[x].color && Consistent(after[x])
    requires forall c :: Issued(bc, c) <= Issued(ac, c)
    requires |after| > |before| ==> Consistent(after[|before|]) && MintedBefore(after[|before|], ac)
    ensures AllMinted(after, ac)
  {
    forall x | 0 <= x < |after|
      ensures Consistent(after[x]) && MintedBefore(after[x], ac)
    {
      if x < |before| {
        MintedBeforeLater(before[x], bc, ac);
        assert Serial(after[x]) == Serial(before[x]);
      }
    }
  }

  lemma GrowthKeepsDistinct(before: seq<Blob>, bc: Counters, after: seq<Blob>)
    requires AllMinted(before, bc) && DistinctIds(before)
    requires |before| <= |after| <= |before| + 1
    requires forall x :: 0 <= x < |before| ==>
      after[x].id == before[x].id && after[x].color == before[x].color
    requires |after| > |before| ==>
      var child := after[|before|];
      |child.color| <= |child.id| && Serial(child) == Issued(bc, child.color)
    ensures DistinctIds(after)
  {
    forall x, y | 0 <= x < y < |after| && after[x].color == after[y].color
      ensures after[x].id != after[y].id
    {
      if y < |before| {
        assert before[x].id != before[y].id;
      } else {
        NewbornIdIsNew(before[x], after[y], bc);
      }
    }
  }

  /** A blob minted from a counter value already handed out does not share its
      id with a newborn of its colour minted from the current value. */
  lemma NewbornIdIsNew(older: Blob, child: Blob, bc: Counters)
    requires MintedBefore(older, bc) && older.color == child.color
    requires |child.color| <= |child.id| && Serial(child) == Issued(bc, child.color)
    ensures older.id != child.id
  {
  }
}

=== FILE: blob_world.dfy ===
/**
  The world engine: resolves a round between two blobs through the win list,
  rewards both strategies, lets the winner reproduce while the population is
  below the cap, and runs days by pairing the start-of-day population as
  (0, 1), (2, 3), ... . The CSV logger becomes an appended trace of records.
 */
module BlobWorld {
  import opened Moves
  import opened Strategies
  import opened Ids
  import opened Blobs

  /** Population cap of the configuration. */
  const MaxBlobs: nat := 100
  /** The largest population a world of `n` blobs can grow to: reproduction
      stops at the cap, and a population already past it only stays. */
  function Ceiling(n: nat): nat {
    if n < MaxBlobs then MaxBlobs else n
  }

  /** Number of days the simulation runs. */
  const SimulationDays: nat := 100

  /** Result of a round, relative to the first blob; the log writes it as
      "draw", "win" or "loss". */
  datatype Outcome = Draw | Win | Loss

  function Resolve(c1: Move, c2: Move): (o: Outcome)
    ensures o == Draw <==> c1 == c2
    ensures o == Win <==> Beats(c1, c2)
    ensures o == Loss <==> Beats(c2, c1)
  {
    BeatsIsStrictCycle(c1, c2, c1);
    if c1 == c2 then Draw
    else if (c1, c2) in WinList then Win
    else Loss
  }

  datatype Rewards = Rewards(first: int, second: int)

  /** The rewards of a round: zero on a draw, +1 to the winner and -1 to the loser. */
  function RewardsOf(o: Outcome): (r: Rewards)
    ensures r.first + r.second == 0
    ensures o == Draw <==> r.first == 0
    ensures o == Win <==> r.first == 1
    ensures o == Loss <==> r.first == -1
  {
    match o
    case Draw => Rewards(0, 0)
    case Win => Rewards(1, -1)
    case Loss => Rewards(-1, 1)
  }

  /** One row of the match log. */
  datatype Record = Record(
    day: nat,
    id1: string, color1: Color, key1: StrategyKey,
    id2: string, color2: Color, key2: StrategyKey,
    choice1: Move, choice2: Move, result: Outcome)

  datatype World = World(blobs: seq<Blob>, counters: Counters, day: nat, log: seq<Record>)

  /** The random numbers of one round, one roll per blob. */
  datatype RoundRolls = RoundRolls(first: Roll, second: Roll)

  /** The rolls of every round, by day and by pair index within the day. */
  type Dice = (nat, nat) -> RoundRolls

  /** The engine at construction: the given blobs, day 0, an empty log. */
  function NewWorld(blobs: seq<Blob>, counters: Counters): (w: World)
    ensures w.blobs == blobs && w.day == 0 && w.log == []
  {
    World(blobs, counters, 0, [])
  }

  /** `after` is `before` having made one more move, `m`. */
  predicate Played(before: Blob, after: Blob, m: Move) {
    MovedOnce(before, after) && after.history[|before.history|].move == m
  }

  /** Reproduction of the round's winner while the population is below the cap. */
  function Offspring(blobs: seq<Blob>, counters: Counters, result: Outcome, b1: Blob, b2: Blob): (r: (seq<Blob>, Counters))
    ensures result == Draw || |blobs| >= MaxBlobs ==> r == (blobs, counters)
    ensures result != Draw && |blobs| < MaxBlobs ==>
      var winner := if result == Win then b1 else b2;
      && |r.0| == |blobs| + 1 && r.0[..|blobs|] == blobs
      && r.0[|blobs|] == Reproduce(winner, counters).0
      && r.1 == Reproduce(winner, counters).1
  {
    match result
    case Draw => (blobs, counters)
    case Win =>
      if |blobs| < MaxBlobs then
        var (child, cs) := Reproduce(b1, counters);
        (blobs + [child], cs)
      else (blobs, counters)
    case Loss =>
      if |blobs| < MaxBlobs then
        var (child, cs) := Reproduce(b2, counters);
        (blobs + [child], cs)
      else (blobs, counters)
  }

  /** `play_round` on the blobs at positions `i` and `j`: the first chooses, then
      the second (seeing the first's history already extended), the round is
      resolved, the winner may reproduce, strategies that learn are updated with
      their own move and reward, and a record is logged. */
  function PlayRound(w: World, i: nat, j: nat, rolls: RoundRolls): (r: World)
    requires i < |w.blobs| && j < |w.blobs| && i != j
    ensures |w.blobs| <= |r.blobs| <= |w.blobs| + 1
    ensures |r.blobs| <= Ceiling(|w.blobs|)
    ensures |r.log| == |w.log| + 1
  {
    var t1 := Blobs.Choose(w.blobs[i], w.blobs[j].color, w.blobs[j].history, rolls.first);
    var t2 := Blobs.Choose(w.blobs[j], t1.blob.color, t1.blob.history, rolls.second);
    var result := Resolve(t1.move, t2.move);
    var rewards := RewardsOf(result);
    var grown := Offspring(w.blobs, w.counters, result, t1.blob, t2.blob);
    var b1 := t1.blob.(strategy := UpdateIfSupported(t1.blob.strategy, t1.move, rewards.first));
    var b2 := t2.blob.(strategy := UpdateIfSupported(t2.blob.strategy, t2.move, rewards.second));
    var rec := Record(w.day,
                      w.blobs[i].id, w.blobs[i].color, w.blobs[i].key,
                      w.blobs[j].id, w.blobs[j].color, w.blobs[j].key,
                      t1.move, t2.move, result);
    World(grown.0[i := b1][j := b2], grown.1, w.day, w.log + [rec])
  }

  /** `r` logs exactly one record after `w`'s: the day, both blobs' identities
      as they were, both moves and the outcome they give. The population grows
      by one exactly when the round is decisive and below the cap. */
  predicate Recorded(w: World, i: nat, j: nat, r: World)
    requires i < |w.blobs| && j < |w.blobs|
  {
    && r.day == w.day
    && |r.log| == |w.log| + 1 && w.log <= r.log
    && var rec := r.log[|w.log|];
    && rec.day == w.day
    && rec.id1 == w.blobs[i].id && rec.color1 == w.blobs[i].color && rec.key1 == w.blobs[i].key
    && rec.id2 == w.blobs[j].id && rec.color2 == w.blobs[j].color && rec.key2 == w.blobs[j].key
    && rec.result == Resolve(rec.choice1, rec.choice2)
    && |r.blobs| == |w.blobs| + (if rec.result != Draw && |w.blobs| < MaxBlobs then 1 else 0)
  }

  /** In `r` each of the two blobs has made one move, the one logged for it;
      every other blob is as in `w`, and an offspring has not moved. */
  predicate Moved(w: World, i: nat, j: nat, r: World)
    requires i < |w.blobs| && j < |w.blobs| && |w.blobs| <= |r.blobs| && |w.log| < |r.log|
  {
    var rec := r.log[|w.log|];
    && Played(w.blobs[i], r.blobs[i], rec.choice1)
    && Played(w.blobs[j], r.blobs[j], rec.choice2)
    && (forall k :: 0 <= k < |w.blobs| && k != i && k != j ==> r.blobs[k] == w.blobs[k])
    && (forall k :: |w.blobs| <= k < |r.blobs| ==> r.blobs[k].history == [])
  }

  lemma RoundRecord(w: World, i: nat, j: nat, rolls: RoundRolls)
    requires i < |w.blobs| && j < |w.blobs| && i != j
    ensures Recorded(w, i, j, PlayRound(w, i, j, rolls))
  {
  }

  /** The two decisions of a round: blob i chooses first, against blob j's
      colour and history; blob j then chooses against blob i's colour and its
      history that already holds this round's entry. */
  lemma RoundChoices(w: World, i: nat, j: nat, rolls: RoundRolls)
    requires i < |w.blobs| && j < |w.blobs| && i != j
    ensures var r := PlayRound(w, i, j, rolls);
      var t1 := Blobs.Choose(w.blobs[i], w.blobs[j].color, w.blobs[j].history, rolls.first);
      var t2 := Blobs.Choose(w.blobs[j], w.blobs[i].color, t1.blob.history, rolls.second);
      var rewards := RewardsOf(Resolve(t1.move, t2.move));
      && r.log[|w.log|].choice1 == t1.move && r.log[|w.log|].choice2 == t2.move
      && r.blobs[i].history == t1.blob.history && r.blobs[j].history == t2.blob.history
      && r.blobs[i].strategy == UpdateIfSupported(t1.blob.strategy, t1.move, rewards.first)
      && r.blobs[j].strategy == UpdateIfSupported(t2.blob.strategy, t2.move, rewards.second)
  {
    var t1 := Blobs.Choose(w.blobs[i], w.blobs[j].color, w.blobs[j].history, rolls.first);
    var t2 := Blobs.Choose(w.blobs[j], t1.blob.color, t1.blob.history, rolls.second);
    var r := PlayRound(w, i, j, rolls);
    assert r.log[|w.log|].choice1 == t1.move && r.log[|w.log|].choice2 == t2.move;
    assert r.blobs[i].history == t1.blob.history && r.blobs[j].history == t2.blob.history;
  }

  lemma RoundMoves(w: World, i: nat, j: nat, rolls: RoundRolls)
    requires i < |w.blobs| && j < |w.blobs| && i != j
    ensures Moved(w, i, j, PlayRound(w, i, j, rolls))
  {
    RoundChoices(w, i, j, rolls);
  }

  /** The engine's standing invariant: every blob is consistent with its key,
      and ids are minted from the counters and distinct per colour. */
  predicate WellFormed(w: World) {
    PopulationOk(w.blobs, w.counters)
  }

  /** A world built from blobs constructed in sequence, as an entry point
      does, is well formed; built from at most 100 pairs it starts within the cap. */
  lemma PopulatedWorldIsWellFormed(counters: Counters, specs: seq<(Color, string)>)
    requires Populate(counters, specs).Some?
    ensures var p := Populate(counters, specs).value;
      && WellFormed(NewWorld(p.0, p.1))
      && (|specs| <= MaxBlobs ==> |NewWorld(p.0, p.1).blobs| <= MaxBlobs)
  {
    PopulateIsOk(counters, specs);
  }

  /** Reproduction keeps the population minted and distinct. */
  lemma OffspringKeepsOk(blobs: seq<Blob>, counters: Counters, result: Outcome, b1: Blob, b2: Blob)
    requires PopulationOk(blobs, counters)
    ensures var grown := Offspring(blobs, counters, result, b1, b2);
      && PopulationOk(grown.0, grown.1)
      && forall x :: 0 <= x < |blobs| ==> grown.0[x] == blobs[x]
  {
    var grown := Offspring(blobs, counters, result, b1, b2);
    if result != Draw && |blobs| < MaxBlobs {
      var winner := if result == Win then b1 else b2;
      ReproduceIsMinted(winner, counters);
      assert forall x :: 0 <= x < |blobs| ==> grown.0[x] == blobs[x] by {
        assert grown.0[..|blobs|] == blobs;
      }
      GrowthKeepsOk(blobs, counters, grown.0, grown.1);
    }
  }

  /** Replacing two blobs by consistent ones with the same identity keeps the
      population minted and distinct. */
  lemma UpdatedKeepsOk(blobs: seq<Blob>, counters: Counters, i: nat, j: nat, b1: Blob, b2: Blob)
    requires PopulationOk(blobs, counters)
    requires i < |blobs| && j < |blobs|
    requires b1.id == blobs[i].id && b1.color == blobs[i].color && Consistent(b1)
    requires b2.id == blobs[j].id && b2.color == blobs[j].color && Consistent(b2)
    ensures PopulationOk(blobs[i := b1][j := b2], counters)
  {
    var after := blobs[i := b1][j := b2];
    forall x | 0 <= x < |after|
      ensures after[x].id == blobs[x].id && after[x].color == blobs[x].color && Consistent(after[x])
    {
    }
    GrowthKeepsOk(blobs, counters, after, counters);
  }

  lemma RoundKeepsWellFormed(w: World, i: nat, j: nat, rolls: RoundRolls)
    requires i < |w.blobs| && j < |w.blobs| && i != j
    requires WellFormed(w)
    ensures WellFormed(PlayRound(w, i, j, rolls))
  {
    var t1 := Blobs.Choose(w.blobs[i], w.blobs[j].color, w.blobs[j].history, rolls.first);
    var t2 := Blobs.Choose(w.blobs[j], t1.blob.color, t1.blob.history, rolls.second);
    var result := Resolve(t1.move, t2.move);
    var rewards := RewardsOf(result);
    var grown := Offspring(w.blobs, w.counters, result, t1.blob, t2.blob);
    var b1 := t1.blob.(strategy := UpdateIfSupported(t1.blob.strategy, t1.move, rewards.first));
    var b2 := t2.blob.(strategy := UpdateIfSupported(t2.blob.strategy, t2.move, rewards.second));
    OffspringKeepsOk(w.blobs, w.counters, result, t1.blob, t2.blob);
    UpdateKeepsHealthy(t1.blob.strategy, t1.move, rewards.first);
    UpdateKeepsHealthy(t2.blob.strategy, t2.move, rewards.second);
    UpdatedKeepsOk(grown.0, grown.1, i, j, b1, b2);
  }

  /** A decisive round below the cap appends one offspring of the winner: same
      colour and key, a fresh strategy, no history, and the next id of its colour. */
  lemma RoundOffspring(w: World, i: nat, j: nat, rolls: RoundRolls)
    requires i < |w.blobs| && j < |w.blobs| && i != j
    ensures var r := PlayRound(w, i, j, rolls);
      var rec := r.log[|w.log|];
      |r.blobs| > |w.blobs| ==>
        var parent := if rec.result == Win then w.blobs[i] else w.blobs[j];
        var child := r.blobs[|w.blobs|];
        && rec.result != Draw
        && child.color == parent.color && child.key == parent.key
        && child.strategy == Fresh(parent.key) && child.history == []
        && child.id == MintId(parent.color, Issued(w.counters, parent.color))
  {
  }

  /** The id counters after a round: only a decisive round below the cap
      issues an id, one of the winner's colour; every other counter stays. */
  lemma RoundCounters(w: World, i: nat, j: nat, rolls: RoundRolls)
    requires i < |w.blobs| && j < |w.blobs| && i != j
    ensures var r := PlayRound(w, i, j, rolls);
      var rec := r.log[|w.log|];
      var grows := rec.result != Draw && |w.blobs| < MaxBlobs;
      var parent := if rec.result == Win then w.blobs[i] else w.blobs[j];
      forall c :: Issued(r.counters, c) == Issued(w.counters, c) + (if grows && c == parent.color then 1 else 0)
  {
  }

  /** Learning after a round: a tabular strategy learns from its own blob's move
      and reward, random and dominant states never change. */
  lemma RoundLearning(w: World, i: nat, j: nat, rolls: RoundRolls)
    requires i < |w.blobs| && j < |w.blobs| && i != j
    ensures var r := PlayRound(w, i, j, rolls);
      var rec := r.log[|w.log|];
      && (w.blobs[i].strategy.RLStrategy? ==>
            r.blobs[i].strategy == RLStrategy(Learn(w.blobs[i].strategy.q, rec.choice1, RewardsOf(rec.result).first)))
      && (w.blobs[j].strategy.RLStrategy? ==>
            r.blobs[j].strategy == RLStrategy(Learn(w.blobs[j].strategy.q, rec.choice2, RewardsOf(rec.result).second)))
      && (w.blobs[i].strategy.RandomStrategy? || w.blobs[i].strategy.DominantStrategy? ==>
            r.blobs[i].strategy == w.blobs[i].strategy)
      && (w.blobs[j].strategy.RandomStrategy? || w.blobs[j].strategy.DominantStrategy? ==>
            r.blobs[j].strategy == w.blobs[j].strategy)
  {
    RoundChoices(w, i, j, rolls);
  }

  /** The second blob decides after the first: a mirror in second position has
      already observed the first blob's move of this very round. */
  lemma MirrorSecondSeesFirst(w: World, i: nat, j: nat, rolls: RoundRolls)
    requires i < |w.blobs| && j < |w.blobs| && i != j
    requires w.blobs[j].strategy.MirrorStrategy?
    ensures var r := PlayRound(w, i, j, rolls);
      var win := Window(r.blobs[j].strategy.opponentMoves, w.blobs[i].color);
      r.blobs[j].strategy.MirrorStrategy? && |win| > 0 && win[|win| - 1] == r.log[|w.log|].choice1
  {
    var t1 := Blobs.Choose(w.blobs[i], w.blobs[j].color, w.blobs[j].history, rolls.first);
    var h := t1.blob.history;
    assert h[|h| - 1].move == t1.move;
    var ch := Strategies.Choose(w.blobs[j].strategy, t1.blob.color, h, rolls.second);
    assert Window(ch.next.opponentMoves, w.blobs[i].color) == Observe(Window(w.blobs[j].strategy.opponentMoves, w.blobs[i].color), t1.move);
  }

  /** A mirror in first position observes the second blob's previous move, if
      it has one, and otherwise leaves its window for that colour as it was. */
  lemma MirrorFirstSeesPrevious(w: World, i: nat, j: nat, rolls: RoundRolls)
    requires i < |w.blobs| && j < |w.blobs| && i != j
    requires w.blobs[i].strategy.MirrorStrategy?
    ensures var r := PlayRound(w, i, j, rolls);
      var h := w.blobs[j].history;
      var before := Window(w.blobs[i].strategy.opponentMoves, w.blobs[j].color);
      && r.blobs[i].strategy.MirrorStrategy?
      && (|h| > 0 ==> Window(r.blobs[i].strategy.opponentMoves, w.blobs[j].color) == Observe(before, h[|h| - 1].move))
      && (|h| == 0 ==> Window(r.blobs[i].strategy.opponentMoves, w.blobs[j].color) == before)
  {
    var t1 := Blobs.Choose(w.blobs[i], w.blobs[j].color, w.blobs[j].history, rolls.first);
    var ch := Strategies.Choose(w.blobs[i].strategy, w.blobs[j].color, w.blobs[j].history, rolls.first);
    assert t1.blob.strategy == ch.next;
    assert PlayRound(w, i, j, rolls).blobs[i].strategy == ch.next;
  }

  // ------------------------------------------------------------------- days

  /** Identities persist, histories only grow and the log only grows. */
  predicate Persists(w: World, r: World) {
    && |w.blobs| <= |r.blobs|
    && w.log <= r.log
    && forall x :: 0 <= x < |w.blobs| ==>
         && r.blobs[x].id == w.blobs[x].id
         && r.blobs[x].color == w.blobs[x].color
         && r.blobs[x].key == w.blobs[x].key
         && w.blobs[x].history <= r.blobs[x].history
  }

  lemma PersistsTransitive(a: World, b: World, c: World)
    requires Persists(a, b) && Persists(b, c)
    ensures Persists(a, c)
  {
  }

  /** `after` is `before` having made exactly one more move. */
  predicate MovedOnce(before: Blob, after: Blob) {
    && after.id == before.id && after.color == before.color && after.key == before.key
    && |after.history| == |before.history| + 1
    && before.history <= after.history
  }

  /** Record `rec` is the round on day `d` between the blobs `b1` and `b2`. */
  predicate PairRecord(rec: Record, d: nat, b1: Blob, b2: Blob) {
    && rec.day == d
    && rec.id1 == b1.id && rec.color1 == b1.color && rec.key1 == b1.key
    && rec.id2 == b2.id && rec.color2 == b2.color && rec.key2 == b2.key
    && rec.result == Resolve(rec.choice1, rec.choice2)
  }

  /** The first k rounds of day `d` are logged, one record per pair of the
      start-of-day population `w`, in pair order. */
  predicate LoggedPairs(w: World, r: World, d: nat, k: nat) {
    && |r.log| == |w.log| + k
    && w.log <= r.log
    && forall x :: |w.log| <= x < |r.log| ==>
         2 * (x - |w.log|) + 1 < |w.blobs| &&
         PairRecord(r.log[x], d, w.blobs[2 * (x - |w.log|)], w.blobs[2 * (x - |w.log|) + 1])
  }

  /** After k rounds, the first 2k blobs have moved once, the rest of the
      start-of-day population is untouched, and offspring have not moved. */
  predicate PairsProgress(w: World, r: World, k: nat) {
    && 2 * k <= |w.blobs| <= |r.blobs|
    && (forall x :: 0 <= x < 2 * k ==> MovedOnce(w.blobs[x], r.blobs[x]))
    && (forall x :: 2 * k <= x < |w.blobs| ==> r.blobs[x] == w.blobs[x])
    && (forall x :: |w.blobs| <= x < |r.blobs| ==> r.blobs[x].history == [])
  }

  /** What the round between positions 2k and 2k+1 does, as far as a day
      needs to know. */
  predicate RoundEffect(r: World, next: World, k: nat)
    requires 2 * k + 1 < |r.blobs|
  {
    && next.day == r.day
    && |next.log| == |r.log| + 1 && r.log <= next.log
    && PairRecord(next.log[|r.log|], r.day, r.blobs[2 * k], r.blobs[2 * k + 1])
    && |r.blobs| <= |next.blobs| <= |r.blobs| + 1
    && |next.blobs| <= Ceiling(|r.blobs|)
    && MovedOnce(r.blobs[2 * k], next.blobs[2 * k])
    && MovedOnce(r.blobs[2 * k + 1], next.blobs[2 * k + 1])
    && (forall x :: 0 <= x < |r.blobs| && x != 2 * k && x != 2 * k + 1 ==> next.blobs[x] == r.blobs[x])
    && (forall x :: |r.blobs| <= x < |next.blobs| ==> next.blobs[x].history == [])
  }

  lemma RoundHasEffect(r: World, k: nat, rolls: RoundRolls)
    requires 2 * k + 1 < |r.blobs|
    ensures RoundEffect(r, PlayRound(r, 2 * k, 2 * k + 1, rolls), k)
  {
    var next := PlayRound(r, 2 * k, 2 * k + 1, rolls);
    RoundRecord(r, 2 * k, 2 * k + 1, rolls);
    RoundMoves(r, 2 * k, 2 * k + 1, rolls);
    EffectOfPair(r, next, k);
  }

  lemma EffectOfPair(r: World, next: World, k: nat)
    requires 2 * k + 1 < |r.blobs|
    requires Recorded(r, 2 * k, 2 * k + 1, next) && Moved(r, 2 * k, 2 * k + 1, next)
    ensures RoundEffect(r, next, k)
  {
  }

  lemma EffectPersists(r: World, next: World, k: nat)
    requires 2 * k + 1 < |r.blobs| && RoundEffect(r, next, k)
    ensures Persists(r, next)
  {
  }

  lemma StepLogged(w: World, r: World, next: World, d: nat, k: nat)
    requires 2 * k + 1 < |w.blobs| && r.day == d
    requires LoggedPairs(w, r, d, k) && PairsProgress(w, r, k) && RoundEffect(r, next, k)
    ensures LoggedPairs(w, next, d, k + 1)
  {
    assert r.blobs[2 * k] == w.blobs[2 * k] && r.blobs[2 * k + 1] == w.blobs[2 * k + 1];
    forall x | |w.log| <= x < |next.log|
      ensures 2 * (x - |w.log|) + 1 < |w.blobs|
      ensures PairRecord(next.log[x], d, w.blobs[2 * (x - |w.log|)], w.blobs[2 * (x - |w.log|) + 1])
    {
      if x < |r.log| {
        assert next.log[x] == r.log[x];
      }
    }
  }

  lemma StepProgress(w: World, r: World, next: World, k: nat)
    requires 2 * k + 1 < |w.blobs|
    requires PairsProgress(w, r, k) && RoundEffect(r, next, k)
    ensures PairsProgress(w, next, k + 1)
  {
    forall x | 0 <= x < 2 * (k + 1)
      ensures MovedOnce(w.blobs[x], next.blobs[x])
    {
      if x >= 2 * k {
        assert r.blobs[x] == w.blobs[x];
      }
    }
  }

  /** What holds after the first k rounds of day `d`, begun from `w`. */
  predicate DayInvariant(w: World, r: World, d: nat, k: nat) {
    && r.day == d
    && WellFormed(r) && Persists(w, r)
    && LoggedPairs(w, r, d, k)
    && PairsProgress(w, r, k)
    && |r.blobs| <= |w.blobs| + k
    && |r.blobs| <= Ceiling(|w.blobs|)
  }

  lemma DayStep(w: World, r: World, next: World, d: nat, k: nat)
    requires 2 * k + 1 < |w.blobs| && DayInvariant(w, r, d, k)
    requires 2 * k + 1 < |r.blobs| && WellFormed(next)
    requires Recorded(r, 2 * k, 2 * k + 1, next) && Moved(r, 2 * k, 2 * k + 1, next)
    ensures DayInvariant(w, next, d, k + 1)
  {
    EffectOfPair(r, next, k);
    EffectPersists(r, next, k);
    PersistsTransitive(w, r, next);
    StepLogged(w, r, next, d, k);
    StepProgress(w, r, next, k);
  }

  lemma DayStarts(w: World, d: nat)
    requires WellFormed(w)
    ensures DayInvariant(w, w.(day := d), d, 0)
  {
  }

  /** Once no pair is left, the day's rounds are exactly floor(n/2). */
  lemma DayEnds(w: World, r: World, d: nat, k: nat)
    requires DayInvariant(w, r, d, k) && 2 * k + 1 >= |w.blobs|
    ensures k == |w.blobs| / 2
    ensures LoggedPairs(w, r, d, |w.blobs| / 2)
    ensures forall x :: 0 <= x < 2 * (|w.blobs| / 2) ==> MovedOnce(w.blobs[x], r.blobs[x])
    ensures |w.blobs| % 2 == 1 ==> r.blobs[|w.blobs| - 1] == w.blobs[|w.blobs| - 1]
  {
  }

  /** `play_round` as a step of the world: the blobs at positions i and j play
      each other; the world stays well formed, the round is logged and each of
      the two has moved once. */
  method PlayPair(w: World, i: nat, j: nat, rolls: RoundRolls) returns (next: World)
    requires i < |w.blobs| && j < |w.blobs| && i != j && WellFormed(w)
    ensures next == PlayRound(w, i, j, rolls)
    ensures WellFormed(next) && Recorded(w, i, j, next) && Moved(w, i, j, next)
  {
    next := PlayRound(w, i, j, rolls);
    RoundKeepsWellFormed(w, i, j, rolls);
    RoundRecord(w, i, j, rolls);
    RoundMoves(w, i, j, rolls);
  }

  /** Reference definition of day `d` from round k on: while 2k + 1 < n, the
      blobs at positions 2k and 2k + 1 play a round with the rolls `dice(d, k)`.
      Offspring appended meanwhile lie at positions n and beyond. */
  function DayFrom(r: World, dice: Dice, d: nat, k: nat, n: nat): World
    requires n <= |r.blobs|
    decreases n - 2 * k, 1
  {
    if 2 * k + 1 < n then AfterRound(r, dice, d, k, n) else r
  }

  /** The rest of day `d` once its round k has been played. */
  function AfterRound(r: World, dice: Dice, d: nat, k: nat, n: nat): World
    requires 2 * k + 1 < n <= |r.blobs|
    decreases n - 2 * k, 0
  {
    DayFrom(PlayRound(r, 2 * k, 2 * k + 1, dice(d, k)), dice, d, k + 1, n)
  }

  /** Reference definition of the first `d` days of `simulate`. */
  function Days(w: World, dice: Dice, d: nat): World {
    if d == 0 then w
    else
      var r := Days(w, dice, d - 1);
      DayFrom(r.(day := d - 1), dice, d - 1, 0, |r.blobs|)
  }

  /** The rounds of day `d` played so far bring `r` to where the reference
      definition of the day, started from `w`, is at round k. */
  predicate OnCourse(w: World, r: World, dice: Dice, d: nat, k: nat)
    requires |w.blobs| <= |r.blobs|
  {
    DayFrom(r, dice, d, k, |w.blobs|) == DayFrom(w.(day := d), dice, d, 0, |w.blobs|)
  }

  /** Round k of day `d`: the blobs at positions 2k and 2k + 1 of the
      start-of-day population `w` play with the rolls `dice(d, k)`, which keeps
      the day's invariant and follows the reference definition by one round. */
  method PlayDayRound(w: World, r: World, d: nat, k: nat, dice: Dice) returns (next: World)
    requires 2 * k + 1 < |w.blobs| && DayInvariant(w, r, d, k)
    requires |w.blobs| <= |r.blobs| && OnCourse(w, r, dice, d, k)
    ensures DayInvariant(w, next, d, k + 1)
    ensures |w.blobs| <= |next.blobs| && OnCourse(w, next, dice, d, k + 1)
  {
    next := PlayPair(r, 2 * k, 2 * k + 1, dice(d, k));
    DayStep(w, r, next, d, k);
    DayFromStep(r, dice, d, k, |w.blobs|);
  }

  lemma DayFromStep(r: World, dice: Dice, d: nat, k: nat, n: nat)
    requires 2 * k + 1 < n <= |r.blobs|
    ensures DayFrom(r, dice, d, k, n) == DayFrom(PlayRound(r, 2 * k, 2 * k + 1, dice(d, k)), dice, d, k + 1, n)
  {
    assert DayFrom(r, dice, d, k, n) == AfterRound(r, dice, d, k, n);
  }

  lemma DayFromDone(r: World, dice: Dice, d: nat, k: nat, n: nat)
    requires 2 * k + 1 >= n && n <= |r.blobs|
    ensures DayFrom(r, dice, d, k, n) == r
  {
  }

  /** One day of `simulate`: the start-of-day population of size n is paired as
      (0, 1), (2, 3), ... for floor(n/2) rounds, an odd last blob sits out, and
      offspring born during the day do not play until the next. */
  method PlayDay(w: World, d: nat, dice: Dice) returns (r: World)
    requires WellFormed(w)
    ensures WellFormed(r) && Persists(w, r) && r.day == d
    ensures LoggedPairs(w, r, d, |w.blobs| / 2)
    ensures forall x :: 0 <= x < 2 * (|w.blobs| / 2) ==> MovedOnce(w.blobs[x], r.blobs[x])
    ensures |w.blobs| % 2 == 1 ==> r.blobs[|w.blobs| - 1] == w.blobs[|w.blobs| - 1]
    ensures forall x :: |w.blobs| <= x < |r.blobs| ==> r.blobs[x].history == []
    ensures |r.blobs| <= |w.blobs| + |w.blobs| / 2
    ensures |r.blobs| <= Ceiling(|w.blobs|)
    ensures r == DayFrom(w.(day := d), dice, d, 0, |w.blobs|)
  {
    var n := |w.blobs|;
    r := w.(day := d);
    var k := 0;
    DayStarts(w, d);
    while 2 * k + 1 < n
      invariant DayInvariant(w, r, d, k)
      invariant n <= |r.blobs| && OnCourse(w, r, dice, d, k)
    {
      var next := PlayDayRound(w, r, d, k, dice);
      r, k := next, k + 1;
    }
    DayEnds(w, r, d, k);
    DayFromDone(r, dice, d, k, n);
  }

  /** `simulate`: the days 0, 1, ..., SimulationDays - 1 in turn. The population
      never shrinks, so every day plays at least floor(n/2) rounds for the
      initial size n, and the log's days never decrease. */
  method Simulate(w: World, dice: Dice) returns (r: World)
    requires WellFormed(w)
    ensures WellFormed(r) && Persists(w, r) && r.day == SimulationDays - 1
    ensures |r.blobs| <= Ceiling(|w.blobs|)
    ensures |r.log| >= |w.log| + SimulationDays * (|w.blobs| / 2)
    ensures forall x :: |w.log| <= x < |r.log| ==> r.log[x].day < SimulationDays
    ensures forall x, y :: |w.log| <= x < y < |r.log| ==> r.log[x].day <= r.log[y].day
    ensures r == Days(w, dice, SimulationDays)
  {
    r := w;
    for d := 0 to SimulationDays
      invariant DaysInvariant(w, r, d)
      invariant r == Days(w, dice, d)
    {
      var next := PlayDay(r, d, dice);
      DaysStep(w, r, next, d);
      r := next;
    }
  }

  /** After days 0, ..., d - 1 of `simulate`. */
  predicate DaysInvariant(w: World, r: World, d: nat) {
    && WellFormed(r) && Persists(w, r) && (d > 0 ==> r.day == d - 1)
    && |r.blobs| <= Ceiling(|w.blobs|)
    && |r.log| >= |w.log| + d * (|w.blobs| / 2)
    && (forall x :: |w.log| <= x < |r.log| ==> r.log[x].day < d)
    && (forall x, y :: |w.log| <= x < y < |r.log| ==> r.log[x].day <= r.log[y].day)
  }

  lemma DaysStep(w: World, r: World, next: World, d: nat)
    requires DaysInvariant(w, r, d)
    requires WellFormed(next) && Persists(r, next) && next.day == d
    requires LoggedPairs(r, next, d, |r.blobs| / 2)
    requires |next.blobs| <= Ceiling(|r.blobs|)
    ensures DaysInvariant(w, next, d + 1)
  {
    PersistsTransitive(w, r, next);
    assert |r.blobs| / 2 >= |w.blobs| / 2;
    assert (d + 1) * (|w.blobs| / 2) == d * (|w.blobs| / 2) + |w.blobs| / 2;
    forall x, y | |w.log| <= x < y < |next.log|
      ensures next.log[x].day <= next.log[y].day
    {
      if y < |r.log| {
        assert next.log[x] == r.log[x] && next.log[y] == r.log[y];
      } else if x < |r.log| {
        assert next.log[x] == r.log[x];
      }
    }
    forall x | |w.log| <= x < |next.log|
      ensures next.log[x].day < d + 1
    {
      if x < |r.log| {
        assert next.log[x] == r.log[x];
      }
    }
  }
}

=== FILE: ids.dfy ===
/**
  Blob ids are the colour followed by the colour's counter written in decimal,
  zero-padded to at least two digits (Python's `:02d`). `ParseDecimal` reads
  such a suffix back, which is what makes ids of one colour distinct.
 */
module Ids {

  predicate IsDigit(c: char) {
    '0' <= c <= '9'
  }

  function DigitChar(d: nat): (c: char)
    requires d < 10
    ensures IsDigit(c)
  {
    ('0' as int + d) as char
  }

  function DigitValue(c: char): nat {
    if IsDigit(c) then (c as int - '0' as int) as nat else 0
  }

  /** Shortest decimal numeral of `n`. */
  function Decimal(n: nat): (s: string)
    ensures |s| >= 1
    ensures forall i :: 0 <= i < |s| ==> IsDigit(s[i])
    ensures n >= 10 ==> |s| >= 2
  {
    if n < 10 then [DigitChar(n)] else Decimal(n / 10) + [DigitChar(n % 10)]
  }

  /** A numeral of two or more digits does not start with zero, and one of a
      number below 100 has exactly two. */
  lemma {:induction false} LeadingDigitNonZero(n: nat)
    requires n >= 10
    ensures Decimal(n)[0] != '0'
    ensures n < 100 ==> |Decimal(n)| == 2
  {
    if n >= 100 {
      LeadingDigitNonZero(n / 10);
      assert Decimal(n)[0] == Decimal(n / 10)[0];
    }
  }

  /** `format(n, "02d")` for a non-negative `n`. */
  function Pad2(n: nat): (s: string)
    ensures |s| >= 2
    ensures n < 100 ==> |s| == 2
    ensures n < 10 ==> s[0] == '0'
    ensures n >= 10 ==> s[0] != '0'
    ensures forall i :: 0 <= i < |s| ==> IsDigit(s[i])
  {
    if n < 10 then ['0', DigitChar(n)]
    else
      LeadingDigitNonZero(n);
      Decimal(n)
  }

  /** Value of a numeral, most significant digit first. */
  function ParseDecimal(s: string): nat {
    if s == [] then 0 else ParseDecimal(s[..|s| - 1]) * 10 + DigitValue(s[|s| - 1])
  }

  lemma {:induction false} DecimalRoundTrip(n: nat)
    ensures ParseDecimal(Decimal(n)) == n
  {
    if n >= 10 {
      var s := Decimal(n);
      DecimalRoundTrip(n / 10);
      assert s[..|s| - 1] == Decimal(n / 10);
      assert DigitValue(s[|s| - 1]) == n % 10;
    }
  }

  lemma Pad2RoundTrip(n: nat)
    ensures ParseDecimal(Pad2(n)) == n
  {
    if n < 10 {
      var s := Pad2(n);
      assert s[..1] == ['0'];
      assert ['0'][..0] == [];
    } else {
      DecimalRoundTrip(n);
    }
  }

  /** The id minted for the `n`-th blob of colour `color`. */
  function MintId(color: string, n: nat): (id: string)
    ensures |id| >= |color| + 2 && id[..|color|] == color
    ensures ParseDecimal(id[|color|..]) == n
  {
    var id := color + Pad2(n);
    assert id[|color|..] == Pad2(n);
    Pad2RoundTrip(n);
    id
  }

  /** Different counter values of one colour give different ids. */
  lemma MintIdInjective(color: string, m: nat, n: nat)
    requires MintId(color, m) == MintId(color, n)
    ensures m == n
  {
  }

  /** Ids are not unique across colours: colour "red1" with counter 1 and
      colour "red" with counter 101 mint the same string. */
  lemma IdsCanCollideAcrossColours()
    ensures MintId("red1", 1) == MintId("red", 101)
  {
    assert Decimal(101) == "101" by {
      assert Decimal(10) == "10";
    }
  }
}

=== FILE: moves.dfy ===
/**
  The three moves of the game, the win list the round resolver consults, the
  reasons a strategy gives for a move, and the explicit random draws that stand
  in for Python's `random` module.
 */
module Moves {

  datatype Move = Rock | Paper | Scissors

  /** The order in which the source lists the moves: rock, paper, scissors. */
  const AllMoves: seq<Move> := [Rock, Paper, Scissors]

  /** Position of a move in `AllMoves`; first-maximum choices break ties by it. */
  function Rank(m: Move): (k: nat)
    ensures k < |AllMoves| && AllMoves[k] == m
  {
    match m
    case Rock => 0
    case Paper => 1
    case Scissors => 2
  }

  lemma MoveCases(m: Move)
    ensures m == Rock || m == Paper || m == Scissors
  {
  }

  /** The source's win list: `(a, b)` is in it when `a` beats `b`. */
  const WinList: seq<(Move, Move)> := [(Rock, Scissors), (Paper, Rock), (Scissors, Paper)]

  predicate Beats(a: Move, b: Move)
    ensures Beats(a, b) <==> Rank(a) == Rank(b) + 1 || Rank(a) + 2 == Rank(b)
  {
    (a, b) in WinList
  }

  /** The move the mirror strategy answers to `m`: rock to paper, paper to
      scissors, scissors to rock. It is the one move that beats `m`. */
  function Counter(m: Move): (r: Move)
    ensures forall a :: Beats(a, m) <==> a == r
  {
    match m
    case Rock => Paper
    case Paper => Scissors
    case Scissors => Rock
  }

  /** The win list describes a strict 3-cycle: no move beats itself, of two
      distinct moves exactly one beats the other, and dominance is not transitive. */
  lemma BeatsIsStrictCycle(a: Move, b: Move, c: Move)
    ensures !Beats(a, a)
    ensures a != b ==> (Beats(a, b) <==> !Beats(b, a))
    ensures Beats(a, b) && Beats(b, c) ==> Beats(c, a)
  {
  }

  /** Why a strategy chose its move. The source stores it as a string:
      "random", "biased", "random (insufficient history)",
      "random (tie in frequency)", "mirror", "explore" or "exploit". */
  datatype Reason =
    | RandomPick
    | Biased
    | InsufficientHistory
    | TieInFrequency
    | MirrorMove
    | Explore
    | Exploit

  /** One entry of a blob's history: the move it made and why. */
  datatype Entry = Entry(move: Move, reason: Reason)

  /** The random numbers one decision may consume: `coin` plays the part of
      `random.random()` and `pick` the part of `random.choice`, which takes the
      element at `pick` modulo the length of the list. */
  datatype Roll = Roll(coin: real, pick: nat)

  /** `random.choice(xs)` driven by an explicit pick. */
  function PickFrom<T>(xs: seq<T>, pick: nat): (r: T)
    requires |xs| > 0
    ensures r in xs
  {
    xs[pick % |xs|]
  }

  /** Every element of the list is the outcome of some pick. */
  lemma PickReachesEvery<T>(xs: seq<T>, i: nat)
    requires i < |xs|
    ensures PickFrom(xs, i) == xs[i]
  {
  }
}

=== FILE: strategy.dfy ===
/** The optional result a registry lookup gives: `None` where Python raises
    `KeyError`. */
module Options {

  datatype Option<+T> = None | Some(value: T)
}

/**
  The decision policies of the simulation: random, dominant (biased towards a
  favourite move), mirror (answers the opponent colour's most frequent recent
  move) and tabular reinforcement learning. Python's classes become the closed
  variant `Strategy`; `choose` returns the successor state alongside the move,
  because the mirror strategy records what it observed.
 */
module Strategies {
  import opened Options
  import opened Moves

  type Color = string

  /** Learning rate of the tabular strategy. */
  const Alpha: real := 0.1
  /** Exploration probability of the tabular strategy. */
  const Epsilon: real := 0.2
  /** Default favourite-move probability of the dominant strategy. */
  const DefaultBias: real := 0.6
  /** Capacity of each per-colour window of the mirror strategy. */
  const WindowSize: nat := 4

  /** Number of times `x` occurs in `xs`. */
  function Occurrences<T(==)>(xs: seq<T>, x: T): (n: nat)
    ensures n <= |xs|
  {
    if xs == [] then 0 else (if xs[0] == x then 1 else 0) + Occurrences(xs[1..], x)
  }

  lemma OccurrencesOfThree<T>(a: T, b: T, c: T, x: T)
    ensures Occurrences([a, b, c], x)
         == (if a == x then 1 else 0) + (if b == x then 1 else 0) + (if c == x then 1 else 0)
  {
    assert [a, b, c][1..] == [b, c];
    assert [b, c][1..] == [c];
    assert [c][1..] == [];
    assert Occurrences([c], x) == (if c == x then 1 else 0) + Occurrences([], x);
    assert Occurrences([b, c], x) == (if b == x then 1 else 0) + Occurrences([c], x);
  }

  /** A sequence every element of which is `m` holds `m` once per position and
      nothing else. */
  lemma {:induction false} OccurrencesOfConstant(w: seq<Move>, m: Move)
    requires forall i :: 0 <= i < |w| ==> w[i] == m
    ensures Occurrences(w, m) == |w|
    ensures forall o :: o != m ==> Occurrences(w, o) == 0
  {
    if w != [] {
      OccurrencesOfConstant(w[1..], m);
    }
  }

  /** Python's `max(keys, key=score)` over rock, paper, scissors: the first move
      of maximal score. */
  function FirstMax(score: Move -> real): (m: Move)
    ensures forall o :: score(o) <= score(m)
    ensures forall o :: Rank(o) < Rank(m) ==> score(o) < score(m)
  {
    var best := Rock;
    var best := if score(Paper) > score(best) then Paper else best;
    var m := if score(Scissors) > score(best) then Scissors else best;
    assert forall o :: score(o) <= score(m) by {
      forall o ensures score(o) <= score(m) {
        MoveCases(o);
      }
    }
    m
  }

  /** The value table of the reinforcement-learning strategy, one entry per move. */
  datatype QTable = QTable(rock: real, paper: real, scissors: real) {

    function Value(m: Move): real {
      match m
      case Rock => rock
      case Paper => paper
      case Scissors => scissors
    }

    function With(m: Move, v: real): (t: QTable)
      ensures t.Value(m) == v
      ensures forall o :: o != m ==> t.Value(o) == Value(o)
    {
      match m
      case Rock => this.(rock := v)
      case Paper => this.(paper := v)
      case Scissors => this.(scissors := v)
    }
  }

  const ZeroTable: QTable := QTable(0.0, 0.0, 0.0)

  datatype Strategy =
    | RandomStrategy
    | DominantStrategy(dominant: Move, bias: real)
    | MirrorStrategy(opponentMoves: map<Color, seq<Move>>)
    | RLStrategy(q: QTable)

  /** A decision: the strategy's state afterwards, the move and its reason. */
  datatype Choice = Choice(next: Strategy, move: Move, reason: Reason)

  // ---------------------------------------------------------------- registry

  /** The names of the strategy registry. */
  datatype StrategyKey = RandomKey | DominantKey | MirrorKey | RLKey

  function Name(k: StrategyKey): string {
    match k
    case RandomKey => "random"
    case DominantKey => "dominant"
    case MirrorKey => "mirror"
    case RLKey => "rl"
  }

  /** Registry lookup by name; `None` where Python raises `KeyError`. */
  function Lookup(name: string): (r: Option<StrategyKey>)
    ensures r.Some? ==> Name(r.value) == name
    ensures forall k :: Name(k) == name ==> r == Some(k)
  {
    if name == "random" then Some(RandomKey)
    else if name == "dominant" then Some(DominantKey)
    else if name == "mirror" then Some(MirrorKey)
    else if name == "rl" then Some(RLKey)
    else None
  }

  /** Names outside the registry, such as the entry point's "mlp" and "lstm", fail. */
  lemma UnregisteredNamesFail()
    ensures Lookup("mlp") == None && Lookup("lstm") == None
  {
  }

  function KindOf(s: Strategy): StrategyKey {
    match s
    case RandomStrategy => RandomKey
    case DominantStrategy(_, _) => DominantKey
    case MirrorStrategy(_) => MirrorKey
    case RLStrategy(_) => RLKey
  }

  /** The strategy the registry constructs for a key, with default arguments. */
  function Fresh(k: StrategyKey): (s: Strategy)
    ensures KindOf(s) == k
    ensures s.DominantStrategy? ==> s.dominant == Rock && s.bias == DefaultBias
    ensures s.MirrorStrategy? ==> forall c :: Window(s.opponentMoves, c) == []
    ensures s.RLStrategy? ==> forall m :: s.q.Value(m) == 0.0
  {
    match k
    case RandomKey => RandomStrategy
    case DominantKey => DominantStrategy(Rock, DefaultBias)
    case MirrorKey => MirrorStrategy(map[])
    case RLKey => RLStrategy(ZeroTable)
  }

  // ------------------------------------------------------------------ random

  function ChooseRandom(d: Roll): (ch: Choice)
    ensures ch.next == RandomStrategy && ch.reason == RandomPick
  {
    Choice(RandomStrategy, PickFrom(AllMoves, d.pick), RandomPick)
  }

  /** Every move is the random strategy's answer to some draw. */
  lemma RandomReachesEveryMove(coin: real, m: Move)
    ensures ChooseRandom(Roll(coin, Rank(m))).move == m
  {
  }

  // ---------------------------------------------------------------- dominant

  /** The moves other than `m`, in source order. */
  function Others(m: Move): (r: seq<Move>)
    ensures |r| == 2 && m !in r
    ensures multiset(r + [m]) == multiset(AllMoves)
    ensures Rank(r[0]) < Rank(r[1])
  {
    match m
    case Rock => [Paper, Scissors]
    case Paper => [Rock, Scissors]
    case Scissors => [Rock, Paper]
  }

  function ChooseDominant(dominant: Move, bias: real, d: Roll): (ch: Choice)
    ensures ch.next == DominantStrategy(dominant, bias)
    ensures d.coin < bias ==> ch.move == dominant && ch.reason == Biased
    ensures bias <= d.coin ==> ch.move != dominant && ch.reason == RandomPick
  {
    if d.coin < bias then Choice(DominantStrategy(dominant, bias), dominant, Biased)
    else Choice(DominantStrategy(dominant, bias), PickFrom(Others(dominant), d.pick), RandomPick)
  }

  /** Off the biased branch, both other moves are reachable. */
  lemma DominantReachesOthers(dominant: Move, bias: real, coin: real, o: Move)
    requires bias <= coin && o != dominant
    ensures exists pick: nat :: pick < 2 && ChooseDominant(dominant, bias, Roll(coin, pick)).move == o
  {
    var r := Others(dominant);
    MoveCases(o);
    MoveCases(dominant);
    if r[0] == o {
      assert ChooseDominant(dominant, bias, Roll(coin, 0)).move == o;
    } else {
      assert ChooseDominant(dominant, bias, Roll(coin, 1)).move == o;
    }
  }

  // ------------------------------------------------------------------ mirror

  /** The window kept for colour `c`; a colour never seen has an empty one. */
  function Window(windows: map<Color, seq<Move>>, c: Color): seq<Move> {
    if c in windows then windows[c] else []
  }

  predicate WindowsBounded(windows: map<Color, seq<Move>>) {
    forall c :: c in windows ==> |windows[c]| <= WindowSize
  }

  /** Append to a bounded deque: once full, the oldest move falls out. */
  function Observe(w: seq<Move>, m: Move): (r: seq<Move>)
    ensures 0 < |r| <= WindowSize && r[|r| - 1] == m
    ensures |w| < WindowSize ==> r == w + [m]
    ensures |w| >= WindowSize ==> r == (w + [m])[|w| + 1 - WindowSize..]
  {
    var s := w + [m];
    if |s| > WindowSize then s[|s| - WindowSize..] else s
  }

  /** A run of observations, oldest first. */
  function ObserveAll(w: seq<Move>, ms: seq<Move>): seq<Move>
    decreases |ms|
  {
    if ms == [] then w else Observe(ObserveAll(w, ms[..|ms| - 1]), ms[|ms| - 1])
  }

  function Min(a: int, b: int): int {
    if a < b then a else b
  }

  /** Starting from an empty window, the window holds exactly the last four
      observations, in order. */
  lemma {:induction false} WindowKeepsLastFour(ms: seq<Move>)
    ensures ObserveAll([], ms) == ms[|ms| - Min(|ms|, WindowSize)..]
  {
    if ms != [] {
      var p := ms[..|ms| - 1];
      WindowKeepsLastFour(p);
      var w := ObserveAll([], p);
      assert w == p[|p| - Min(|p|, WindowSize)..];
      assert p + [ms[|ms| - 1]] == ms;
      if |p| < WindowSize {
        assert w == p;
      } else {
        assert w + [ms[|ms| - 1]] == ms[|ms| - 1 - WindowSize..];
      }
    }
  }

  /** The window consulted after the observation `choose` makes: the
      opponent's last move is appended only when its history is non-empty. */
  function ObservedWindow(windows: map<Color, seq<Move>>, c: Color, history: seq<Entry>): seq<Move> {
    var w := Window(windows, c);
    if |history| > 0 then Observe(w, history[|history| - 1].move) else w
  }

  /** `m` occurs strictly more often in `w` than each other move. */
  predicate StrictMode(w: seq<Move>, m: Move) {
    forall o :: o != m ==> Occurrences(w, o) < Occurrences(w, m)
  }

  function Tallies(w: seq<Move>): seq<nat> {
    [Occurrences(w, Rock), Occurrences(w, Paper), Occurrences(w, Scissors)]
  }

  function MostCommon(w: seq<Move>): Move {
    FirstMax(m => Occurrences(w, m) as real)
  }

  /** The source's tie test (the maximal count appears more than once among the
      three counts) holds exactly when no move is a strict mode, and a strict
      mode is the first maximum. */
  lemma TieMeansNoStrictMode(w: seq<Move>)
    ensures Occurrences(Tallies(w), Occurrences(w, MostCommon(w))) > 1
        <==> !exists m :: StrictMode(w, m)
    ensures forall m :: StrictMode(w, m) ==> m == MostCommon(w)
  {
    var mc := MostCommon(w);
    var score := (m: Move) => Occurrences(w, m) as real;
    assert forall o :: Occurrences(w, o) <= Occurrences(w, mc) by {
      forall o ensures Occurrences(w, o) <= Occurrences(w, mc) {
        assert score(o) <= score(mc);
      }
    }
    OccurrencesOfThree(Occurrences(w, Rock), Occurrences(w, Paper), Occurrences(w, Scissors), Occurrences(w, mc));
    if Occurrences(Tallies(w), Occurrences(w, mc)) > 1 {
      forall m ensures !StrictMode(w, m) {
        var o: Move :| o != mc && Occurrences(w, o) == Occurrences(w, mc);
        if m == mc {
          assert Occurrences(w, o) == Occurrences(w, m);
        } else if o == m {
          assert Occurrences(w, mc) == Occurrences(w, m);
        } else {
          assert Occurrences(w, mc) >= Occurrences(w, m);
        }
      }
    } else {
      assert StrictMode(w, mc);
    }
  }

  function ChooseMirror(windows: map<Color, seq<Move>>, c: Color, history: seq<Entry>, d: Roll): (ch: Choice)
    ensures ch.next.MirrorStrategy?
    ensures |history| == 0 ==> Window(ch.next.opponentMoves, c) == Window(windows, c)
    ensures |history| > 0 ==>
      Window(ch.next.opponentMoves, c) == Observe(Window(windows, c), history[|history| - 1].move)
    ensures forall o :: o != c ==> Window(ch.next.opponentMoves, o) == Window(windows, o)
    ensures WindowsBounded(windows) ==> WindowsBounded(ch.next.opponentMoves)
    ensures var w := ObservedWindow(windows, c, history);
      && (|w| < 2 ==> ch.reason == InsufficientHistory)
      && (|w| >= 2 ==> (ch.reason == MirrorMove <==> exists m :: StrictMode(w, m)))
      && (|w| >= 2 && !(exists m :: StrictMode(w, m)) ==> ch.reason == TieInFrequency)
      && (ch.reason == MirrorMove ==> exists m :: StrictMode(w, m) && Beats(ch.move, m))
  {
    var w := ObservedWindow(windows, c, history);
    var next := MirrorStrategy(windows[c := w]);
    if |w| < 2 then
      Choice(next, PickFrom(AllMoves, d.pick), InsufficientHistory)
    else
      var count := Tallies(w);
      var mostCommon := MostCommon(w);
      TieMeansNoStrictMode(w);
      if Occurrences(count, Occurrences(w, mostCommon)) > 1 then
        Choice(next, PickFrom(AllMoves, d.pick), TieInFrequency)
      else
        Choice(next, Counter(mostCommon), MirrorMove)
  }

  /** The mirror's two random fallbacks, too few observations and a tie in
      frequency, can each answer with every move. */
  lemma MirrorRandomReachesEveryMove(windows: map<Color, seq<Move>>, c: Color, history: seq<Entry>, coin: real, m: Move)
    requires var w := ObservedWindow(windows, c, history);
      |w| < 2 || !(exists x :: StrictMode(w, x))
    ensures ChooseMirror(windows, c, history, Roll(coin, Rank(m))).move == m
  {
    TieMeansNoStrictMode(ObservedWindow(windows, c, history));
  }

  /** An opponent colour seen to play only `m`, at least twice, is answered with
      the move that beats `m`. */
  lemma MirrorAnswersRepeatedMove(windows: map<Color, seq<Move>>, c: Color, history: seq<Entry>, d: Roll, m: Move)
    requires var w := ObservedWindow(windows, c, history);
      |w| >= 2 && forall i :: 0 <= i < |w| ==> w[i] == m
    ensures ChooseMirror(windows, c, history, d).move == Counter(m)
    ensures ChooseMirror(windows, c, history, d).reason == MirrorMove
  {
    var w := ObservedWindow(windows, c, history);
    OccurrencesOfConstant(w, m);
    assert StrictMode(w, m);
    TieMeansNoStrictMode(w);
  }

  /** A fresh mirror strategy meeting an opponent colour that plays rock three
      times in a row answers paper, by mirroring, on the third encounter. */
  lemma MirrorThreeRocks(c: Color, why: Reason, d1: Roll, d2: Roll, d3: Roll)
    ensures var e := Entry(Rock, why);
      var first := ChooseMirror(map[], c, [e], d1);
      var second := ChooseMirror(first.next.opponentMoves, c, [e, e], d2);
      var third := ChooseMirror(second.next.opponentMoves, c, [e, e, e], d3);
      third.move == Paper && third.reason == MirrorMove
  {
    var e := Entry(Rock, why);
    var first := ChooseMirror(map[], c, [e], d1);
    assert Window(first.next.opponentMoves, c) == [Rock];
    var second := ChooseMirror(first.next.opponentMoves, c, [e, e], d2);
    assert Window(second.next.opponentMoves, c) == [Rock, Rock];
    var w := ObservedWindow(second.next.opponentMoves, c, [e, e, e]);
    assert w == [Rock, Rock, Rock];
    MirrorAnswersRepeatedMove(second.next.opponentMoves, c, [e, e, e], d3, Rock);
  }

  // ------------------------------------------------------- reinforcement learning

  function Greedy(q: QTable): Move {
    FirstMax(m => q.Value(m))
  }

  function ChooseRL(q: QTable, d: Roll): (ch: Choice)
    ensures ch.next == RLStrategy(q)
    ensures d.coin < Epsilon ==> ch.reason == Explore
    ensures Epsilon <= d.coin ==> ch.reason == Exploit
    ensures Epsilon <= d.coin ==> forall o :: q.Value(o) <= q.Value(ch.move)
    ensures Epsilon <= d.coin ==> forall o :: Rank(o) < Rank(ch.move) ==> q.Value(o) < q.Value(ch.move)
  {
    if d.coin < Epsilon then Choice(RLStrategy(q), PickFrom(AllMoves, d.pick), Explore)
    else
      var m := Greedy(q);
      assert forall o :: q.Value(o) <= q.Value(m) by {
        forall o ensures q.Value(o) <= q.Value(m) {
          assert (x => q.Value(x))(o) <= (x => q.Value(x))(m);
        }
      }
      assert forall o :: Rank(o) < Rank(m) ==> q.Value(o) < q.Value(m) by {
        forall o | Rank(o) < Rank(m) ensures q.Value(o) < q.Value(m) {
          assert (x => q.Value(x))(o) < (x => q.Value(x))(m);
        }
      }
      Choice(RLStrategy(q), m, Exploit)
  }

  /** Exploring can answer with every move. */
  lemma ExploreReachesEveryMove(q: QTable, coin: real, m: Move)
    requires coin < Epsilon
    ensures ChooseRL(q, Roll(coin, Rank(m))).move == m
  {
  }

  /** The incremental value update of the tabular strategy. */
  function Learn(q: QTable, chosen: Move, reward: int): (t: QTable)
    ensures forall o :: o != chosen ==> t.Value(o) == q.Value(o)
    ensures t.Value(chosen) - reward as real == (1.0 - Alpha) * (q.Value(chosen) - reward as real)
  {
    var current := q.Value(chosen);
    q.With(chosen, current + Alpha * (reward as real - current))
  }

  /** From the zero table, one win with rock lifts the rock entry to 0.1. */
  lemma FirstRockWin()
    ensures Learn(ZeroTable, Rock, 1).Value(Rock) == 0.1
    ensures Learn(ZeroTable, Rock, 1).Value(Paper) == 0.0
    ensures Learn(ZeroTable, Rock, 1).Value(Scissors) == 0.0
  {
  }

  predicate InUnitRange(q: QTable) {
    forall m :: -1.0 <= q.Value(m) <= 1.0
  }

  /** Rewards of -1, 0 or 1 keep every value in [-1, 1]. */
  lemma LearnStaysInUnitRange(q: QTable, chosen: Move, reward: int)
    requires InUnitRange(q) && -1 <= reward <= 1
    ensures InUnitRange(Learn(q, chosen, reward))
  {
    var t := Learn(q, chosen, reward);
    var v := q.Value(chosen);
    assert t.Value(chosen) == 0.9 * v + 0.1 * reward as real;
  }

  // ---------------------------------------------------------------- dispatch

  /** `choose` of whatever variant `s` is. */
  function Choose(s: Strategy, opponentColor: Color, opponentHistory: seq<Entry>, d: Roll): (ch: Choice)
    ensures KindOf(ch.next) == KindOf(s)
    ensures !s.MirrorStrategy? ==> ch.next == s
    ensures s.RandomStrategy? ==> ch.reason == RandomPick
    ensures s.DominantStrategy? ==> ch.reason == Biased || ch.reason == RandomPick
    ensures s.MirrorStrategy? ==>
      ch.reason == InsufficientHistory || ch.reason == TieInFrequency || ch.reason == MirrorMove
    ensures s.RLStrategy? ==> ch.reason == Explore || ch.reason == Exploit
    ensures Healthy(s) ==> Healthy(ch.next)
    ensures s.RandomStrategy? ==> ch == ChooseRandom(d)
    ensures s.DominantStrategy? ==> ch == ChooseDominant(s.dominant, s.bias, d)
    ensures s.MirrorStrategy? ==> ch == ChooseMirror(s.opponentMoves, opponentColor, opponentHistory, d)
    ensures s.RLStrategy? ==> ch == ChooseRL(s.q, d)
  {
    match s
    case RandomStrategy => ChooseRandom(d)
    case DominantStrategy(dominant, bias) => ChooseDominant(dominant, bias, d)
    case MirrorStrategy(windows) => ChooseMirror(windows, opponentColor, opponentHistory, d)
    case RLStrategy(q) => ChooseRL(q, d)
  }

  /** `update` where the variant defines it (only the tabular strategy does);
      every other state is left as it is. */
  function UpdateIfSupported(s: Strategy, chosen: Move, reward: int): (t: Strategy)
    ensures KindOf(t) == KindOf(s)
    ensures !s.RLStrategy? ==> t == s
    ensures s.RLStrategy? ==> t == RLStrategy(Learn(s.q, chosen, reward))
    ensures s.RLStrategy? ==> forall o :: o != chosen ==> t.q.Value(o) == s.q.Value(o)
  {
    match s
    case RLStrategy(q) => RLStrategy(Learn(q, chosen, reward))
    case _ => s
  }

  /** State a strategy keeps by construction: mirror windows hold at most four
      moves and tabular values stay in [-1, 1]. */
  predicate Healthy(s: Strategy) {
    match s
    case MirrorStrategy(windows) => WindowsBounded(windows)
    case RLStrategy(q) => InUnitRange(q)
    case _ => true
  }

  lemma FreshIsHealthy(k: StrategyKey)
    ensures Healthy(Fresh(k))
  {
  }

  lemma UpdateKeepsHealthy(s: Strategy, chosen: Move, reward: int)
    requires Healthy(s) && -1 <= reward <= 1
    ensures Healthy(UpdateIfSupported(s, chosen, reward))
  {
    if s.RLStrategy? {
      LearnStaysInUnitRange(s.q, chosen, reward);
    }
  }
}
